=== FILE: README.md ===
# Home weather station: measurement store and dashboard resolvers

A Dafny model of the core of a home weather/power monitoring server. The server
stores readings from a LoRa radio receiver and HTTP clients in an SQLite
database and draws charts of them. The model covers four parts:

- **The measurement store** (`db/queries.py`, `db/weather_station.py`):
  - Each table is a sequence of rows in insertion order, held in the
    `Db.Database` class. The row at index `i` has RowId `i + 1`.
  - The `store_*` functions append one row and return its RowId.
  - Point lookups return the row at position `offset` among the matching rows,
    newest first, or `0` when that row does not exist.
  - The series query returns up to `int(period / 5)` matching rows as two
    parallel lists `x` (timestamps) and `y` (values), newest first.
  - `queries.py` filters on `meas_type` only when the argument is truthy in
    Python. `weather_station.py` always filters.
- **The name resolvers** (`pages/weather_station/tools.py`):
  - `convert_period` maps `hour`, `day`, `week`, `month` and `year` to minutes.
    Any other name raises an exception.
  - `convert_param` maps a dashboard name such as `temperature_out` to a column
    and a measurement type.
  - The model also keeps the part of `generate_scatter` that feeds both results
    into the weather series query.
- **The LoRa payload dispatch** (`send_to_home` in `lora_reciever.py`):
  - A `0,` prefix is forwarded to the wind endpoint and a `1,` prefix to the
    power endpoint. Any other payload is dropped.
  - On both forwarding branches `status` is never assigned. The final
    `return status` therefore raises UnboundLocalError, modelled as the
    `UnboundStatus` outcome.

Modules:
- `Sql` (sql.dfy) models the row selection the queries rely on:
  - `ORDER BY RowId DESC` becomes `Positions`: the indices of the matching rows, newest first.
  - `LIMIT`/`OFFSET` becomes `Window`. A negative OFFSET counts as 0, and a negative LIMIT means no limit.
  - `fetchone()` becomes `Lookup`.
- `Db` (database.dfy) holds the schema and the tables, and models single-row `INSERT` and `SELECT`.
- `Queries`, `WeatherStation`, `Tools` and `LoraReceiver` follow the four source files.

The model follows the code as written, including these behaviours:
- `convert_param` tests for `_in` and `_out` as substrings, so a tag in the middle of a name counts.
- A name with neither tag gets type `0`.
- Series come back newest first; nothing reverses them into time order.
- `store_power_data` writes to `wind_data`.

The quoted filter `meas_type = '<x>'` is modelled as `Filter.TypeSpelled`. The
unquoted filter of the weather series query is modelled as `Filter.TypeIs`.
`Sql.SpelledFilterIsTypeFilter` proves that the two keep the same rows when the
text is the decimal spelling of an integer.

## Model

| member | source | states |
|---|---|---|
| `Sql.DecimalText` | home_server/db/queries.py:43 | Python's `str()` of an integer inside the f-string: a leading `-` exactly for negative numbers, then decimal digits that denote `abs(n)` with no leading zero, and `0` is spelled `0` |
| `Sql.DigitsDenote` | home_server/db/queries.py:43 | the decimal digits written for a natural number `n` read back as `n`, and start with `0` only when `n` is 0 |
| `Sql.Keeps` | home_server/db/queries.py:43 | the WHERE clause: no clause keeps every row; a type filter keeps only rows with an integer `meas_type`; a quoted text keeps only rows whose integer type it spells, so the spelling of `n` keeps exactly the rows of type `n` |
| `Sql.DecimalTextInjective` | home_server/db/queries.py:43 | two integers with the same `str()` spelling are equal, so a quoted type literal names one type |
| `Sql.Positions` | home_server/db/queries.py:44 | the newest-first result set as table indices: each index is in range and names a matching row, the indices strictly decrease, and every matching row is listed |
| `Sql.Window` | home_server/db/queries.py:88 | `LIMIT n OFFSET k` keeps a contiguous run of the ordered rows starting at `max(k,0)`, at most `n` long when `n >= 0` and never longer than the rows left |
| `Sql.Lookup` | home_server/db/queries.py:44-47 | `fetchone()` on `LIMIT 2 OFFSET k` yields a row exactly when at least `k+1` rows match; the row is the matching row `k` places back from the newest, so `LIMIT 2` has no effect |
| `Sql.PositionsAppend` | home_server/db/queries.py:6-13 | appending a row puts its index in front of the newest-first list when it matches, and leaves the list alone otherwise |
| `Sql.EveryPositions` | home_server/db/queries.py:43-44 | without a WHERE clause the newest-first list is every index of the table, reversed |
| `Sql.SpelledFilterIsTypeFilter` | home_server/db/weather_station.py:18-19 | `WHERE meas_type = '<n>'` keeps exactly the rows `WHERE meas_type = n` keeps |
| `Sql.LookupAfterAppendNewest` | home_server/db/weather_station.py:6-27 | after appending a matching row, offset 0 returns that row |
| `Sql.LookupAfterAppendShifts` | home_server/db/weather_station.py:6-27 | after appending a matching row, offset `k+1` returns what offset `k` returned before |
| `Sql.LookupAfterAppendOther` | home_server/db/weather_station.py:6-27 | appending a row that does not match changes no lookup at any offset |
| `Sql.LookupEvery` | home_server/db/queries.py:43-44 | without a filter, offset `k` is the `(k+1)`-th last row of the table, and no row exists past the table's length |
| `Db.NewRow` | home_server/db/queries.py:8 | an inserted row has exactly the table's columns; each named column holds its value and every other column is NULL |
| `Db.MissingColumn` | home_server/db/queries.py:8 | SQLite's "no such column": none is reported exactly when every named column is in the table, and a reported name is named but not a column |
| `Db.Database.Insert` | home_server/db/queries.py:6-13 | on success exactly one row is appended after the existing rows of that table, no other table changes, and the new RowId is returned; an unknown table, an unknown column or a wrong value count leaves the database unchanged |
| `Db.Database.Select` | home_server/db/queries.py:44-46 | fails exactly on an unknown table, an unknown selected column, or a type filter on a table without `meas_type`; otherwise yields the fetched window of newest-first matching rows |
| `Db.Fetch` | home_server/db/queries.py:88-94 | result row `j` is the projection of the matching row at newest-first position `offset + j`, and there are as many rows as the window allows |
| `Queries.Truthy` | home_server/db/queries.py:43 | the `if meas_type` test: the falsy arguments are exactly `None`, `0` and `''` |
| `Queries.Spelling` | home_server/db/queries.py:43 | the text between the quotes: `None` for an absent argument, a string verbatim, and for an integer a spelling no other integer shares |
| `Queries.FilterOf` | home_server/db/queries.py:57 | no WHERE clause exactly for a falsy argument, the quoted comparison otherwise; a non-zero integer, and a string spelling an integer `n`, keep exactly the rows of that type |
| `Queries.RowCount` | home_server/db/queries.py:87 | `int(period / 5)` truncates toward zero: `5n <= period < 5(n+1)` for non-negative periods, and the mirror image for negative ones |
| `Queries.StoreWeatherData` | home_server/db/queries.py:6-13 | appends one row of the six weather columns to `weather_data`, returns its RowId, and changes nothing else |
| `Queries.StoreWindData` | home_server/db/queries.py:16-28 | appends one row of the sixteen wind columns to `wind_data` (including the column spelled `min_knh`), returns its RowId, and changes nothing else |
| `Queries.StorePowerData` | home_server/db/queries.py:31-38 | appends the power columns to `wind_data`, not `power_data`; `power_data` never changes |
| `Queries.PointQuery` | home_server/db/queries.py:44-52 | the `param` cell of the matching row `offset` places back from the newest, or `0` when no such row exists; it errors exactly on an unknown table or column, or a type filter on a table without `meas_type` |
| `Queries.RowQuery` | home_server/db/queries.py:58-66 | the whole matching row `offset` places back from the newest, or `0` when no such row exists |
| `Queries.GetOneMeasurement` | home_server/db/queries.py:41-52 | the point lookup, filtered by `meas_type` only when the argument is truthy |
| `Queries.GetLastMeasurementPack` | home_server/db/queries.py:55-66 | the row lookup, filtered by `meas_type` only when the argument is truthy |
| `Queries.OneMeasurementIsCellOfPack` | home_server/db/queries.py:41-66 | the value lookup and the row lookup select the same row: the value is that row's `param` cell, and both give `0` when the row is missing |
| `Queries.FalsyTypeConsidersEveryRow` | home_server/db/queries.py:43 | with `None`, `0` or `''` as `meas_type`, offset `k` is the `(k+1)`-th newest row of the whole table, whatever its type |
| `Queries.NumberTypeFilters` | home_server/db/queries.py:43 | a non-zero integer `meas_type` keeps exactly the rows of that type |
| `Queries.TextTypeFilters` | home_server/pages/weather_station/dashboard.py:18-25 | a string spelling an integer `n`, such as the dashboard's `'0'` and `'1'`, is truthy and keeps exactly the rows of type `n` |
| `Queries.TextZeroFilters` | home_server/db/queries.py:57 | the string `'0'` is truthy and the integer `0` is not, so `'0'` filters to type-0 rows |
| `Queries.SeriesShape` | home_server/db/queries.py:87-101 | `x` and `y` have equal length, at most the LIMIT and at most the number of matching rows; every entry comes from a matching row, and entries get older along the lists |
| `Queries.FetchedSeries` | home_server/db/queries.py:94-100 | reading `ts` and `param` off the fetched rows in order gives the newest-first series of the table |
| `Queries.CollectResults` | home_server/db/queries.py:93-95 | the first loop collects every fetched row, in fetch order |
| `Queries.SplitColumns` | home_server/db/queries.py:96-100 | the second loop makes `x[j]` the `ts` cell and `y[j]` the `param` cell of result `j` |
| `Queries.FetchSeries` | home_server/db/queries.py:88-101 | the series query and its two loops yield the newest-first series of at most LIMIT matching rows, or the query's error |
| `Queries.GetLastSeriesMeasurement` | home_server/db/queries.py:84-101 | at most `int(period / 5)` matching rows as `(ts, param)` lists, newest first, with the type filter applied only when `meas_type` is truthy |
| `Queries.NonMatchingAppendKeepsSeries` | home_server/db/queries.py:84-101 | appending a row the filter rejects leaves the series unchanged: a list is the series after the append exactly when it was the series before |
| `WeatherStation.StoreWeatherData` | home_server/db/weather_station.py:6-13 | appends one row to `weather_data`, returns its RowId, and changes nothing else |
| `WeatherStation.StoredRowHasGivenType` | home_server/db/weather_station.py:8 | the stored row's `meas_type` is the second value given, so it matches type `t` exactly when that value is `t` |
| `WeatherStation.GetOneMeasurement` | home_server/db/weather_station.py:16-27 | the `param` cell of the type-`t` row `offset` places back from the newest, or `0`; the filter is always applied, also for type 0 |
| `WeatherStation.GetLastMeasurementPack` | home_server/db/weather_station.py:30-41 | the whole type-`t` row `offset` places back from the newest, or `0` |
| `WeatherStation.GetLastSeriesMeasurement` | home_server/db/weather_station.py:59-76 | at most `int(period / 5)` type-`t` rows as `(ts, param)` lists, newest first |
| `WeatherStation.NewestAfterAppend` | home_server/db/weather_station.py:6-27 | after a type-`t` row is appended, offset 0 reads that row's `param` and offset 1 reads the previous newest type-`t` row's (or `0`) |
| `WeatherStation.OtherTypeAppendInvisible` | home_server/db/weather_station.py:6-41 | appending a row of another type changes no type-`t` value or row lookup at any offset |
| `WeatherStation.OtherTypeAppendSeriesInvisible` | home_server/db/weather_station.py:59-76 | appending a row of another type leaves the type-`t` series unchanged, in both directions |
| `Tools.ConvertPeriod` | home_server/pages/weather_station/tools.py:11-24 | `hour`, `day`, `week`, `month` and `year` give 60, 1440, 10080, 43200 and 525600 minutes; every other name is the `WrongPeriod` error |
| `Tools.PeriodIsWholeReadings` | home_server/pages/weather_station/tools.py:11-24 | every period is a positive multiple of 60 and of the 5-minute update period, so `int(period / 5)` is exact and at least 12 |
| `Tools.Contains` | home_server/pages/weather_station/tools.py:28 | Python's `t in s` holds exactly when `t` occurs at some index of `s` |
| `Tools.DropLast` | home_server/pages/weather_station/tools.py:30 | `s[:-n]` is a prefix of `s`: exactly `n` characters shorter when `0 < n <= len(s)`, and empty when `s` is shorter than `n` or `n` is 0 |
| `Tools.ConvertParam` | home_server/pages/weather_station/tools.py:27-37 | `_in` anywhere gives type 0 and drops 3 characters; otherwise `_out` anywhere gives type 1 and drops 4; otherwise the name is kept whole with type 0 |
| `Tools.InSuffixRoundTrip` | home_server/pages/weather_station/tools.py:28-30 | for a name ending in `_in`, column `+ "_in"` gives back the name, with type 0 |
| `Tools.OutSuffixRoundTrip` | home_server/pages/weather_station/tools.py:31-33 | for a name ending in `_out` with no `_in` anywhere, column `+ "_out"` gives back the name, with type 1 |
| `Tools.InsideInBeatsOutSuffix` | home_server/pages/weather_station/tools.py:28-33 | `_in` tested as a substring wins over an `_out` suffix: `heating_index_out` becomes `heating_index_` with type 0 |
| `Tools.GenerateScatter` | home_server/pages/weather_station/tools.py:40-47 | an unknown period fails first; otherwise the result is the weather series of the resolved column and type, at most `minutes / 5` rows, newest first; a column without a unit fails |
| `LoraReceiver.Head2` | home_server/lora_reciever.py:38 | `payload[:2]` is the payload's first two characters, or the whole payload when it is shorter |
| `LoraReceiver.SendToHome` | home_server/lora_reciever.py:37-45 | a `0,` payload is posted whole to `/add_wind_data` and a `1,` payload to `/add_power_data`; both then end in UnboundLocalError; any other payload posts nothing and returns 1 |
| `LoraReceiver.ShortPayloadDropped` | home_server/lora_reciever.py:42-44 | a payload shorter than two characters posts nothing and returns 1 |
| `LoraReceiver.FirstTwoCharactersDecide` | home_server/lora_reciever.py:38-44 | payloads with the same first two characters go to the same endpoint, or both nowhere, and end the same way |
| `LoraReceiver.AtMostOneDestination` | home_server/lora_reciever.py:38-41 | the two endpoints differ and no payload carries both tags, so a call makes at most one post |

## Left out

- Unit conversions (`celsius_to_fahrenheit`, `fahrenheit_to_celsius`, `mmhg_to_baromin`, `heat_index`, `humidex`): floating-point arithmetic and `math.exp`.
- Chart rendering in `generate_scatter` (plotly `Scatter`, `Layout`, `Figure`, `offline.plot`): it is a third-party library. The model keeps the resolver→query composition and the `units[fparam]` lookup that runs before plotting.
- `get_one_last_average_measurement`, in both store modules: its SQL text lacks `SELECT` and its row count is a float string, so its behaviour is not well defined.
- SQL text building, injection through interpolated arguments, `get_db`/`close_db` and `commit`:
  - db/db.py is not part of this model.
  - The `data` argument of the `store_*` functions is modelled as its already-parsed list of values.
  - The table schema is a parameter of the `Db.Database` constructor.
- SQLite type affinity:
  - The model assumes the `meas_type` column has INTEGER (numeric) affinity; db/db.py, which declares the column type, is not part of this model. Under TEXT affinity or no declared type, `meas_type = '0'` would not match an integer 0 at all.
  - A quoted type literal matches an integer `meas_type` cell only when it is that integer's canonical decimal spelling. Spellings that SQLite would also convert (leading zeros, `+`, spaces) are not modelled.
  - `meas_type` cells holding reals or text are not modelled.
- Duplicate column names within one INSERT column list are not modelled. The constant lists have none.
- Db.NewRow: assumes a schema without DEFAULT clauses and without an INTEGER PRIMARY KEY column, so every column an INSERT does not name is NULL. SQLite would fill a default value or the RowId instead; db/db.py, which creates the tables, is not part of this model.
- Column and table names are compared case-sensitively, while SQLite identifiers are case-insensitive. A name that differs from the schema only in letter case is reported as `NoSuchColumn` or `NoSuchTable`, where SQLite would accept it.
- Floating-point and string offsets and periods: the dashboard passes offsets such as `287.0` and `'1'`, and `int(period / 5)` goes through a float. Offsets and periods are integers here.
- `meas_type` arguments of other Python types (bool, float) in `db/queries.py` are not modelled.
- `db/weather_station.py` takes only integer types here. Its only caller that passes a `meas_type`, `generate_scatter` (pages/weather_station/tools.py:43), passes the integer that `convert_param` returns, so other argument types are not modelled.
- SQL errors other than an unknown table, an unknown column or a wrong value count are not modelled. This covers connectivity, constraint violations and locking.
- RowId is the position in the table plus one. This holds because rows are only ever appended; there is no update or delete path.
- The LoRa receiver's radio handling (`__init__`, `start`, `on_rx_done`, `run_lora`): hardware I/O, an endless polling loop and sleeps.
- The debug `print` in `send_to_home`. Failures of the HTTP post itself are also not modelled.
- Flask routes and page views (app.py, routes/, dashboard.py, wind.py, single_page.py, single_data_page.py, compare_page.py, power.py). They are request plumbing around the modelled queries.
- Pushes to third-party weather services (send_data.py) and the WUnderground reference lookup in dashboard.py: network calls.

=== FILE: database.dfy ===
/** The SQLite database behind `get_db()`: a fixed schema and, per table, the
  * rows inserted so far. Only the two statement shapes the measurement code
  * issues are modelled: a single-row `INSERT INTO t(columns) VALUES(values)`
  * and `SELECT <projection> FROM t [WHERE meas_type = ...] ORDER BY RowId DESC
  * LIMIT n OFFSET k`. */
module Db {
  import opened Results
  import opened Sql

  function ColumnSet(columns: seq<string>): set<string>
  {
    set c | c in columns
  }

  /** A row has exactly the columns of its table. */
  predicate Conforms(row: Row, columns: seq<string>)
  {
    row.Keys == ColumnSet(columns)
  }

  /** The first name in `names` that is not a column, as SQLite reports "no such column". */
  function MissingColumn(names: seq<string>, columns: seq<string>): (r: Option<string>)
    ensures r.None? <==> ColumnSet(names) <= ColumnSet(columns)
    ensures r.Some? ==> r.value in names && r.value !in columns
  {
    if names == [] then None
    else if names[0] !in columns then
      assert names[0] in ColumnSet(names);
      Some(names[0])
    else
      var rest := MissingColumn(names[1..], columns);
      assert ColumnSet(names) == {names[0]} + ColumnSet(names[1..]);
      rest
  }

  function IndexOf(names: seq<string>, c: string): (i: nat)
    requires c in names
    ensures i < |names| && names[i] == c
  {
    if names[0] == c then 0 else 1 + IndexOf(names[1..], c)
  }

  /** The row `INSERT INTO t(names) VALUES(values)` stores: each named column
    * holds its value, every other column of the table is NULL. */
  function NewRow(columns: seq<string>, names: seq<string>, values: seq<Value>): (row: Row)
    requires |names| == |values|
    ensures Conforms(row, columns)
    ensures forall j :: 0 <= j < |names| && names[j] in columns && IndexOf(names, names[j]) == j ==> row[names[j]] == values[j]
    ensures forall c :: c in columns && c !in names ==> row[c] == Null
  {
    map c | c in columns :: if c in names then values[IndexOf(names, c)] else Null
  }

  /** The column list of a SELECT. */
  datatype Projection = Star | Columns(names: seq<string>)

  function ProjectedNames(p: Projection): seq<string>
  {
    match p
    case Star => []
    case Columns(names) => names
  }

  /** The row as the cursor returns it for projection `p`. */
  function Project(row: Row, p: Projection): (r: Row)
    ensures p.Star? ==> r == row
    ensures p.Columns? ==> r.Keys == row.Keys * ColumnSet(p.names)
    ensures forall c :: c in r ==> c in row && r[c] == row[c]
  {
    match p
    case Star => row
    case Columns(names) => map c | c in names && c in row :: row[c]
  }

  /** The result rows of `SELECT p ... [WHERE f] ORDER BY RowId DESC LIMIT limit OFFSET offset`
    * over `rows`: the projections of the matching rows, newest first, from position
    * `offset` on and at most `limit` of them. */
  function Fetch(rows: seq<Row>, p: Projection, f: Filter, limit: int, offset: int): (r: seq<Row>)
    ensures |r| == WindowLength(|Positions(rows, f)|, offset, limit)
    ensures forall j :: 0 <= j < |r| ==>
              Skipped(offset) + j < |Positions(rows, f)|
              && r[j] == Project(rows[Positions(rows, f)[Skipped(offset) + j]], p)
  {
    var w := Window(Positions(rows, f), offset, limit);
    ProjectAll(rows, w, p)
  }

  /** The projections of the rows at the given positions, in that order. */
  function ProjectAll(rows: seq<Row>, w: seq<nat>, p: Projection): (r: seq<Row>)
    requires forall j :: 0 <= j < |w| ==> w[j] < |rows|
    ensures |r| == |w|
    ensures forall j :: 0 <= j < |w| ==> r[j] == Project(rows[w[j]], p)
  {
    seq(|w|, j requires 0 <= j < |w| => Project(rows[w[j]], p))
  }

  class Database {
    /** Column names of every table, in declaration order. */
    const schema: map<string, seq<string>>
    /** The rows of every table, oldest first. */
    var tables: map<string, seq<Row>>

    ghost predicate Valid()
      reads this
    {
      && tables.Keys == schema.Keys
      && forall t, i :: t in tables && 0 <= i < |tables[t]| ==> Conforms(tables[t][i], schema[t])
    }

    /** A database whose tables are all empty. */
    constructor (schema: map<string, seq<string>>)
      ensures Valid()
      ensures this.schema == schema
      ensures forall t :: t in schema ==> t in tables && tables[t] == []
    {
      this.schema := schema;
      tables := map t | t in schema :: [];
    }

    /** `INSERT INTO table(names) VALUES(values)` followed by `cursor.lastrowid`:
      * on success exactly one row is added after all existing rows of `table`,
      * its RowId (the table's new length) is returned, and nothing else changes. */
    method Insert(table: string, names: seq<string>, values: seq<Value>) returns (r: Result<nat, SqlError>)
      requires Valid()
      modifies this
      ensures Valid()
      ensures table !in schema ==> r == Err(NoSuchTable(table))
      ensures r.Ok? <==> table in schema && ColumnSet(names) <= ColumnSet(schema[table]) && |values| == |names|
      ensures r.Ok? ==> tables == old(tables)[table := old(tables[table]) + [NewRow(schema[table], names, values)]]
      ensures r.Ok? ==> r.value == |tables[table]| && 1 <= r.value
      ensures r.Err? ==> tables == old(tables)
    {
      if table !in schema {
        return Err(NoSuchTable(table));
      }
      var missing := MissingColumn(names, schema[table]);
      if missing.Some? {
        return Err(NoSuchColumn(missing.value));
      }
      if |values| != |names| {
        return Err(ValueCount(|values|, |names|));
      }
      tables := tables[table := tables[table] + [NewRow(schema[table], names, values)]];
      r := Ok(|tables[table]|);
    }

    /** `SELECT p FROM table [WHERE f] ORDER BY RowId DESC LIMIT limit OFFSET offset`,
      * or the error SQLite reports for an unknown table or column. */
    function Select(table: string, p: Projection, f: Filter, limit: int, offset: int): (r: Result<seq<Row>, SqlError>)
      reads this
      requires Valid()
      ensures table !in schema ==> r == Err(NoSuchTable(table))
      ensures table in schema ==>
                (r.Ok? <==> ColumnSet(ProjectedNames(p)) <= ColumnSet(schema[table])
                            && (f.Every? || MeasTypeColumn in schema[table]))
      ensures r.Ok? ==> table in tables && r.value == Fetch(tables[table], p, f, limit, offset)
    {
      if table !in schema then Err(NoSuchTable(table))
      else
        match MissingColumn(ProjectedNames(p), schema[table])
        case Some(c) => Err(NoSuchColumn(c))
        case None =>
          if !f.Every? && MeasTypeColumn !in schema[table] then Err(NoSuchColumn(MeasTypeColumn))
          else Ok(Fetch(tables[table], p, f, limit, offset))
    }
  }
}

=== FILE: lora_receiver.dfy ===
/** `send_to_home` of the LoRa receiver (lora_reciever.py): the two-character
  * prefix of a received payload decides whether it is forwarded as wind data,
  * as power data, or dropped. The HTTP post is the decision's output. */
module LoraReceiver {
  import opened Results

  const Endpoint: string := "http://0.0.0.0:80/api/v1"
  const WindUrl: string := Endpoint + "/add_wind_data"
  const PowerUrl: string := Endpoint + "/add_power_data"

  /** `requests.post(url=url, json={'data': data})`. */
  datatype Post = Post(url: string, data: string)

  /** What `return status` does: return a value, or raise UnboundLocalError
    * because no branch taken assigned `status`. */
  datatype Status = Returned(code: int) | UnboundStatus

  datatype Outcome = Outcome(post: Option<Post>, status: Status)

  /** Python's `payload[:2]`. */
  function Head2(payload: string): (h: string)
    ensures |h| == if |payload| < 2 then |payload| else 2
    ensures h == payload[..|h|]
  {
    if |payload| < 2 then payload else payload[..2]
  }

  /** The payload starts with the two characters `d` and `,`. */
  predicate Tagged(payload: string, d: char)
  {
    |payload| >= 2 && payload[0] == d && payload[1] == ','
  }

  /** `send_to_home(payload)`: `0,` posts the whole payload to the wind endpoint,
    * `1,` to the power endpoint, and on both the return fails because `status`
    * is unbound; anything else posts nothing and returns 1. */
  function SendToHome(payload: string): (r: Outcome)
    ensures Tagged(payload, '0') ==> r.post == Some(Post(WindUrl, payload))
    ensures Tagged(payload, '1') ==> r.post == Some(Post(PowerUrl, payload))
    ensures r.post.Some? <==> Tagged(payload, '0') || Tagged(payload, '1')
    ensures r.post.Some? ==> r.status == UnboundStatus
    ensures r.post.None? ==> r.status == Returned(1)
  {
    if Head2(payload) == "0," then
      Outcome(Some(Post(WindUrl, payload)), UnboundStatus)
    else if Head2(payload) == "1," then
      Outcome(Some(Post(PowerUrl, payload)), UnboundStatus)
    else
      Outcome(None, Returned(1))
  }

  /** A payload shorter than two characters is always dropped. */
  lemma ShortPayloadDropped(payload: string)
    requires |payload| < 2
    ensures SendToHome(payload) == Outcome(None, Returned(1))
  {
  }

  /** Only the first two characters decide: payloads that agree on them go to
    * the same endpoint (or both nowhere) and end the same way. */
  lemma FirstTwoCharactersDecide(p: string, q: string)
    requires Head2(p) == Head2(q)
    ensures SendToHome(p).status == SendToHome(q).status
    ensures SendToHome(p).post.Some? == SendToHome(q).post.Some?
    ensures SendToHome(p).post.Some? ==> SendToHome(p).post.value.url == SendToHome(q).post.value.url
  {
  }

  /** The endpoints differ, so no payload can be routed to both. */
  lemma AtMostOneDestination(payload: string)
    ensures !(Tagged(payload, '0') && Tagged(payload, '1'))
    ensures WindUrl != PowerUrl
  {
    assert WindUrl[|Endpoint| + 5] != PowerUrl[|Endpoint| + 5];
  }
}

=== FILE: queries.dfy ===
/** The generic measurement store (db/queries.py): single-row appends to the
  * weather, wind and power tables, offset lookups of one value or one whole row,
  * and the newest-first (timestamp, value) series behind the charts. The
  * `meas_type` filter is applied only when the argument is truthy in Python. */
module Queries {
  import opened Results
  import opened Sql
  import opened Db

  /** Minutes between two consecutive readings. */
  const DataUpdatePeriod: int := 5

  const WeatherTable: string := "weather_data"
  const WindTable: string := "wind_data"
  const PowerTable: string := "power_data"

  const WeatherColumns: seq<string> := ["ts", "meas_type", "temperature", "humidity", "pressure", "dew_point"]
  const WindColumns: seq<string> :=
    [ "ts", "unix_ts",
      "avg_rps", "max_rps", "min_rps",
      "avg_ms", "max_ms", "min_ms",
      "avg_kmh", "max_kmh", "min_knh",
      "avg_knots", "max_knots", "min_knots",
      "heading", "heading_abbr" ]
  const PowerColumns: seq<string> := ["ts", "unix_ts", "avg_voltage", "avg_current", "avg_power", "avg_consumption"]

  /** The Python value passed as `meas_type`: `None`, an `int`, or a `str` such as `'0'`. */
  datatype MeasTypeArg = Absent | Number(n: int) | Str(s: string)

  /** Python truthiness: the falsy arguments are exactly `None`, `0` and `''`. */
  function Truthy(a: MeasTypeArg): (b: bool)
    ensures !b <==> a == Absent || a == Number(0) || a == Str("")
  {
    match a
    case Absent => false
    case Number(n) => n != 0
    case Str(s) => s != ""
  }

  /** The text `f'{meas_type}'` puts between the quotes: `None` for an absent
    * argument, a string verbatim, and for an integer a decimal spelling that
    * no other integer shares. */
  function Spelling(a: MeasTypeArg): (r: string)
    ensures a.Absent? ==> r == "None"
    ensures a.Str? ==> r == a.s
    ensures a.Number? ==> forall m :: r == DecimalText(m) <==> m == a.n
  {
    match a
    case Absent => "None"
    case Number(n) =>
      assert forall m :: DecimalText(n) == DecimalText(m) ==> m == n by {
        forall m | DecimalText(n) == DecimalText(m) ensures m == n {
          DecimalTextInjective(m, n);
        }
      }
      DecimalText(n)
    case Str(s) => s
  }

  /** The WHERE clause of the point and series queries: none for a falsy
    * argument (every row is kept), and otherwise `meas_type = '<a>'`, which for
    * a non-zero integer keeps exactly the rows of that type. */
  function FilterOf(a: MeasTypeArg): (f: Filter)
    ensures f.Every? <==> !Truthy(a)
    ensures f.TypeSpelled? <==> Truthy(a)
    ensures a.Number? && a.n != 0 ==> forall row :: Keeps(f, row) <==> Keeps(TypeIs(a.n), row)
    ensures a.Str? ==> forall n: int, row: Row :: a.s == DecimalText(n) ==> (Keeps(f, row) <==> Keeps(TypeIs(n), row))
  {
    if Truthy(a) then TypeSpelled(Spelling(a)) else Every
  }

  /** Python's `int(period / data_update_period)`: the quotient truncated toward zero. */
  function RowCount(period: int): (n: int)
    ensures 0 <= period ==> 0 <= n * DataUpdatePeriod <= period < (n + 1) * DataUpdatePeriod
    ensures period < 0 ==> (n - 1) * DataUpdatePeriod < period <= n * DataUpdatePeriod <= 0
  {
    if period >= 0 then period / DataUpdatePeriod else -((-period) / DataUpdatePeriod)
  }

  // ---- appends ----

  /** `store_weather_data`: one row into `weather_data`; returns its RowId. */
  method StoreWeatherData(db: Database, data: seq<Value>) returns (r: Result<nat, SqlError>)
    requires db.Valid()
    modifies db
    ensures db.Valid()
    ensures r.Ok? <==> (WeatherTable in db.schema && ColumnSet(WeatherColumns) <= ColumnSet(db.schema[WeatherTable])
                        && |data| == |WeatherColumns|)
    ensures r.Ok? ==> db.tables == old(db.tables)[WeatherTable := old(db.tables[WeatherTable]) + [NewRow(db.schema[WeatherTable], WeatherColumns, data)]]
    ensures r.Ok? ==> r.value == |db.tables[WeatherTable]|
    ensures r.Err? ==> db.tables == old(db.tables)
  {
    r := db.Insert(WeatherTable, WeatherColumns, data);
  }

  /** `store_wind_data`: one row into `wind_data`; returns its RowId. */
  method StoreWindData(db: Database, data: seq<Value>) returns (r: Result<nat, SqlError>)
    requires db.Valid()
    modifies db
    ensures db.Valid()
    ensures r.Ok? <==> (WindTable in db.schema && ColumnSet(WindColumns) <= ColumnSet(db.schema[WindTable])
                        && |data| == |WindColumns|)
    ensures r.Ok? ==> db.tables == old(db.tables)[WindTable := old(db.tables[WindTable]) + [NewRow(db.schema[WindTable], WindColumns, data)]]
    ensures r.Ok? ==> r.value == |db.tables[WindTable]|
    ensures r.Err? ==> db.tables == old(db.tables)
  {
    r := db.Insert(WindTable, WindColumns, data);
  }

  /** `store_power_data`: the power columns are inserted into `wind_data`, so
    * `power_data` is never written. */
  method StorePowerData(db: Database, data: seq<Value>) returns (r: Result<nat, SqlError>)
    requires db.Valid()
    modifies db
    ensures db.Valid()
    ensures r.Ok? <==> (WindTable in db.schema && ColumnSet(PowerColumns) <= ColumnSet(db.schema[WindTable])
                        && |data| == |PowerColumns|)
    ensures r.Ok? ==> db.tables == old(db.tables)[WindTable := old(db.tables[WindTable]) + [NewRow(db.schema[WindTable], PowerColumns, data)]]
    ensures r.Ok? ==> r.value == |db.tables[WindTable]|
    ensures r.Err? ==> db.tables == old(db.tables)
    ensures PowerTable in db.tables ==> PowerTable in old(db.tables) && db.tables[PowerTable] == old(db.tables[PowerTable])
  {
    r := db.Insert(WindTable, PowerColumns, data);
  }

  // ---- point lookups ----

  /** `SELECT param FROM table [WHERE f] ORDER BY RowId DESC LIMIT 2 OFFSET offset`
    * followed by `fetchone()`: the `param` cell of the matching row `offset`
    * places back from the newest, or `0` when there is no such row. */
  function PointQuery(db: Database, table: string, param: string, offset: int, f: Filter): (r: Result<Value, SqlError>)
    reads db
    requires db.Valid()
    ensures table !in db.schema ==> r == Err(NoSuchTable(table))
    ensures table in db.schema ==>
              (r.Ok? <==> param in db.schema[table] && (f.Every? || MeasTypeColumn in db.schema[table]))
    ensures r.Ok? ==> table in db.tables
    ensures r.Ok? && Lookup(db.tables[table], f, offset).Some? ==>
              param in Lookup(db.tables[table], f, offset).value
              && r.value == Lookup(db.tables[table], f, offset).value[param]
    ensures r.Ok? && Lookup(db.tables[table], f, offset).None? ==> r.value == Int(0)
  {
    assert ColumnSet([param]) == {param};
    match db.Select(table, Columns([param]), f, 2, offset)
    case Err(e) => Err(e)
    case Ok(fetched) =>
      if fetched == [] then Ok(Int(0))
      else
        var k := Positions(db.tables[table], f)[Skipped(offset)];
        assert Conforms(db.tables[table][k], db.schema[table]);
        Ok(fetched[0][param])
  }

  /** The row a point lookup returns: the whole row, or Python's `0`. */
  datatype Pack = Whole(row: Row) | NoRow

  /** `SELECT * FROM table [WHERE f] ORDER BY RowId DESC LIMIT 2 OFFSET offset`
    * followed by `fetchone()`: the same row `PointQuery` reads, as a whole. */
  function RowQuery(db: Database, table: string, offset: int, f: Filter): (r: Result<Pack, SqlError>)
    reads db
    requires db.Valid()
    ensures table !in db.schema ==> r == Err(NoSuchTable(table))
    ensures table in db.schema ==> (r.Ok? <==> f.Every? || MeasTypeColumn in db.schema[table])
    ensures r.Ok? ==> table in db.tables
    ensures r.Ok? ==> (r.value.NoRow? <==> Lookup(db.tables[table], f, offset).None?)
    ensures r.Ok? && r.value.Whole? ==> Some(r.value.row) == Lookup(db.tables[table], f, offset)
  {
    match db.Select(table, Star, f, 2, offset)
    case Err(e) => Err(e)
    case Ok(fetched) => if fetched == [] then Ok(NoRow) else Ok(Whole(fetched[0]))
  }

  /** `get_one_measurement(table, param, offset, meas_type)`. */
  function GetOneMeasurement(db: Database, table: string, param: string, offset: int, measType: MeasTypeArg): (r: Result<Value, SqlError>)
    reads db
    requires db.Valid()
    ensures table !in db.schema ==> r == Err(NoSuchTable(table))
    ensures table in db.schema ==>
              (r.Ok? <==> param in db.schema[table] && (!Truthy(measType) || MeasTypeColumn in db.schema[table]))
    ensures r.Ok? && Lookup(db.tables[table], FilterOf(measType), offset).Some? ==>
              r.value == Lookup(db.tables[table], FilterOf(measType), offset).value[param]
    ensures r.Ok? && Lookup(db.tables[table], FilterOf(measType), offset).None? ==> r.value == Int(0)
  {
    PointQuery(db, table, param, offset, FilterOf(measType))
  }

  /** `get_last_measurement_pack(table, offset, meas_type)`. */
  function GetLastMeasurementPack(db: Database, table: string, offset: int, measType: MeasTypeArg): (r: Result<Pack, SqlError>)
    reads db
    requires db.Valid()
    ensures table !in db.schema ==> r == Err(NoSuchTable(table))
    ensures table in db.schema ==> (r.Ok? <==> !Truthy(measType) || MeasTypeColumn in db.schema[table])
    ensures r.Ok? ==> (r.value.NoRow? <==> Lookup(db.tables[table], FilterOf(measType), offset).None?)
    ensures r.Ok? && r.value.Whole? ==> Some(r.value.row) == Lookup(db.tables[table], FilterOf(measType), offset)
  {
    RowQuery(db, table, offset, FilterOf(measType))
  }

  /** The value lookup and the row lookup pick the same row: the value is that
    * row's `param` cell, and both are `0` when the row does not exist. */
  lemma OneMeasurementIsCellOfPack(db: Database, table: string, param: string, offset: int, measType: MeasTypeArg)
    requires db.Valid()
    requires table in db.schema && param in db.schema[table]
    ensures GetOneMeasurement(db, table, param, offset, measType).Ok?
            == GetLastMeasurementPack(db, table, offset, measType).Ok?
    ensures GetLastMeasurementPack(db, table, offset, measType) == Ok(NoRow)
            ==> GetOneMeasurement(db, table, param, offset, measType) == Ok(Int(0))
    ensures GetLastMeasurementPack(db, table, offset, measType).Ok?
            && GetLastMeasurementPack(db, table, offset, measType).value.Whole?
            ==> var row := GetLastMeasurementPack(db, table, offset, measType).value.row;
                param in row && GetOneMeasurement(db, table, param, offset, measType) == Ok(row[param])
  {
    var f := FilterOf(measType);
    var found := Lookup(db.tables[table], f, offset);
    if found.Some? {
      var k := Positions(db.tables[table], f)[Skipped(offset)];
      assert Conforms(db.tables[table][k], db.schema[table]);
    }
  }

  /** A falsy `meas_type` (`None`, `0`, `''`) adds no WHERE clause: offset k is
    * the (k+1)-th newest row of the whole table, whatever its type. */
  lemma FalsyTypeConsidersEveryRow(rows: seq<Row>, measType: MeasTypeArg, offset: int)
    requires !Truthy(measType)
    ensures Skipped(offset) < |rows| ==>
              Lookup(rows, FilterOf(measType), offset) == Some(rows[|rows| - 1 - Skipped(offset)])
    ensures Skipped(offset) >= |rows| ==> Lookup(rows, FilterOf(measType), offset) == None
  {
    LookupEvery(rows, offset);
  }

  /** A non-zero integer `meas_type` keeps exactly the rows of that type. */
  lemma NumberTypeFilters(rows: seq<Row>, n: int)
    requires n != 0
    ensures Positions(rows, FilterOf(Number(n))) == Positions(rows, TypeIs(n))
  {
    SpelledFilterIsTypeFilter(rows, n);
  }

  /** A string that spells an integer `n` (the dashboard passes `'0'` and `'1'`)
    * is truthy and keeps exactly the rows of type `n`. */
  lemma TextTypeFilters(rows: seq<Row>, n: int)
    ensures Truthy(Str(DecimalText(n)))
    ensures Positions(rows, FilterOf(Str(DecimalText(n)))) == Positions(rows, TypeIs(n))
  {
    SpelledFilterIsTypeFilter(rows, n);
  }

  /** The string `'0'` is truthy, so unlike the integer `0` it does filter:
    * it keeps exactly the rows of type 0. */
  lemma TextZeroFilters(rows: seq<Row>)
    ensures Truthy(Str("0")) && !Truthy(Number(0))
    ensures Positions(rows, FilterOf(Str("0"))) == Positions(rows, TypeIs(0))
  {
    assert DecimalText(0) == "0";
    SpelledFilterIsTypeFilter(rows, 0);
  }

  // ---- series ----

  /** The two parallel lists `get_last_series_measurement` returns. */
  datatype Series = Series(x: seq<Value>, y: seq<Value>)

  /** `s` lists, newest first, the `ts` and `param` cells of the matching rows of
    * `rows`, as many as `LIMIT limit` lets through. */
  predicate IsSeries(rows: seq<Row>, f: Filter, param: string, limit: int, s: Series)
  {
    var p := Positions(rows, f);
    && |s.x| == |s.y| == WindowLength(|p|, 0, limit)
    && forall i :: 0 <= i < |s.x| ==>
         && p[i] < |rows|
         && "ts" in rows[p[i]] && param in rows[p[i]]
         && s.x[i] == rows[p[i]]["ts"] && s.y[i] == rows[p[i]][param]
  }

  /** A series has two lists of equal length, at most `limit` long when `limit`
    * is not negative and never longer than the number of matching rows; each
    * entry comes from a matching row, and entries get older along the lists. */
  lemma SeriesShape(rows: seq<Row>, f: Filter, param: string, limit: int, s: Series)
    requires IsSeries(rows, f, param, limit, s)
    ensures |s.x| == |s.y| <= |Positions(rows, f)| <= |rows|
    ensures limit >= 0 ==> |s.x| <= limit
    ensures limit < 0 ==> |s.x| == |Positions(rows, f)|
    ensures forall i :: 0 <= i < |s.x| ==> Keeps(f, rows[Positions(rows, f)[i]])
    ensures forall i, j :: 0 <= i < j < |s.x| ==> Positions(rows, f)[i] > Positions(rows, f)[j]
  {
  }

  /** Every row the series query fetches has its `ts` and `param` cells. */
  lemma FetchedHasCells(rows: seq<Row>, columns: seq<string>, f: Filter, param: string, limit: int, fetched: seq<Row>)
    requires forall i :: 0 <= i < |rows| ==> Conforms(rows[i], columns)
    requires "ts" in columns && param in columns
    requires fetched == Fetch(rows, Columns(["ts", param]), f, limit, 0)
    ensures forall j :: 0 <= j < |fetched| ==> "ts" in fetched[j] && param in fetched[j]
  {
    forall j | 0 <= j < |fetched|
      ensures "ts" in fetched[j] && param in fetched[j]
    {
      FetchedRowCells(rows, columns, f, param, limit, j);
    }
  }

  /** Reading `ts` and `param` off the fetched rows, in order, gives the
    * newest-first series of the table. */
  lemma FetchedSeries(rows: seq<Row>, columns: seq<string>, f: Filter, param: string, limit: int, s: Series)
    requires forall i :: 0 <= i < |rows| ==> Conforms(rows[i], columns)
    requires "ts" in columns && param in columns
    requires |s.x| == |s.y| == |Fetch(rows, Columns(["ts", param]), f, limit, 0)|
    requires forall j :: 0 <= j < |s.x| ==>
               var row := Fetch(rows, Columns(["ts", param]), f, limit, 0)[j];
               "ts" in row && param in row && s.x[j] == row["ts"] && s.y[j] == row[param]
    ensures IsSeries(rows, f, param, limit, s)
  {
    var p := Positions(rows, f);
    forall j | 0 <= j < |s.x|
      ensures p[j] < |rows| && "ts" in rows[p[j]] && param in rows[p[j]]
      ensures s.x[j] == rows[p[j]]["ts"] && s.y[j] == rows[p[j]][param]
    {
      FetchedRowCells(rows, columns, f, param, limit, j);
    }
  }

  /** Fetched row `j` carries the `ts` and `param` cells of the `j`-th newest matching row. */
  lemma FetchedRowCells(rows: seq<Row>, columns: seq<string>, f: Filter, param: string, limit: int, j: nat)
    requires forall i :: 0 <= i < |rows| ==> Conforms(rows[i], columns)
    requires "ts" in columns && param in columns
    requires j < |Fetch(rows, Columns(["ts", param]), f, limit, 0)|
    ensures var p := Positions(rows, f);
            var row := Fetch(rows, Columns(["ts", param]), f, limit, 0)[j];
            && j < |p| && p[j] < |rows| && "ts" in rows[p[j]] && param in rows[p[j]]
            && "ts" in row && param in row
            && row["ts"] == rows[p[j]]["ts"] && row[param] == rows[p[j]][param]
  {
    var p := Positions(rows, f);
    var row := Fetch(rows, Columns(["ts", param]), f, limit, 0)[j];
    assert Conforms(rows[p[j]], columns);
    assert row == Project(rows[p[j]], Columns(["ts", param]));
    assert "ts" in ColumnSet(["ts", param]) && param in ColumnSet(["ts", param]);
  }

  /** The first loop of `get_last_series_measurement`: every fetched row,
    * turned into a dict, appended to `results` in the order `fetchall()` gives. */
  method CollectResults(fetched: seq<Row>) returns (results: seq<Row>)
    ensures results == fetched
  {
    results := [];
    var i := 0;
    while i < |fetched|
      invariant 0 <= i <= |fetched|
      invariant results == fetched[..i]
    {
      results := results + [fetched[i]];
      i := i + 1;
    }
  }

  /** The second loop of `get_last_series_measurement`: `result['ts']` appended
    * to `x` and `result[param]` to `y`, for each result in order. */
  method SplitColumns(results: seq<Row>, param: string) returns (s: Series)
    requires forall j :: 0 <= j < |results| ==> "ts" in results[j] && param in results[j]
    ensures |s.x| == |s.y| == |results|
    ensures forall j :: 0 <= j < |results| ==> s.x[j] == results[j]["ts"] && s.y[j] == results[j][param]
  {
    var x: seq<Value> := [];
    var y: seq<Value> := [];
    var k := 0;
    while k < |results|
      invariant 0 <= k <= |results|
      invariant |x| == |y| == k
      invariant forall j :: 0 <= j < k ==> x[j] == results[j]["ts"] && y[j] == results[j][param]
    {
      x := x + [results[k]["ts"]];
      y := y + [results[k][param]];
      k := k + 1;
    }
    s := Series(x, y);
  }

  /** `get_last_series_measurement` once the LIMIT is known: the query, then
    * its two loops. */
  method FetchSeries(db: Database, table: string, param: string, limit: int, f: Filter) returns (r: Result<Series, SqlError>)
    requires db.Valid()
    ensures table !in db.schema ==> r == Err(NoSuchTable(table))
    ensures table in db.schema ==>
              (r.Ok? <==> "ts" in db.schema[table] && param in db.schema[table]
                          && (f.Every? || MeasTypeColumn in db.schema[table]))
    ensures r.Ok? ==> table in db.tables && IsSeries(db.tables[table], f, param, limit, r.value)
  {
    assert ColumnSet(["ts", param]) == {"ts", param};
    var selected := db.Select(table, Columns(["ts", param]), f, limit, 0);
    if selected.Err? {
      return Err(selected.error);
    }
    var fetched := selected.value;
    FetchedHasCells(db.tables[table], db.schema[table], f, param, limit, fetched);
    var results := CollectResults(fetched);
    var s := SplitColumns(results, param);
    FetchedSeries(db.tables[table], db.schema[table], f, param, limit, s);
    r := Ok(s);
  }

  /** `get_last_series_measurement(table, param, period, meas_type)`: at most
    * `int(period / 5)` matching rows, newest first, no reversal. */
  method GetLastSeriesMeasurement(db: Database, table: string, param: string, period: int, measType: MeasTypeArg)
    returns (r: Result<Series, SqlError>)
    requires db.Valid()
    ensures table !in db.schema ==> r == Err(NoSuchTable(table))
    ensures table in db.schema ==>
              (r.Ok? <==> "ts" in db.schema[table] && param in db.schema[table]
                          && (!Truthy(measType) || MeasTypeColumn in db.schema[table]))
    ensures r.Ok? ==> IsSeries(db.tables[table], FilterOf(measType), param, RowCount(period), r.value)
    ensures r.Ok? && period >= 0 ==> |r.value.x| == |r.value.y| <= RowCount(period)
  {
    r := FetchSeries(db, table, param, RowCount(period), FilterOf(measType));
  }

  /** Appending a row the filter rejects leaves the series unchanged: a list is
    * the series of the longer table exactly when it is the series of the shorter one. */
  lemma NonMatchingAppendKeepsSeries(before: seq<Row>, row: Row, f: Filter, param: string, limit: int, s: Series)
    requires !Keeps(f, row)
    ensures IsSeries(before + [row], f, param, limit, s) <==> IsSeries(before, f, param, limit, s)
  {
    PositionsAppend(before, row, f);
    if IsSeries(before + [row], f, param, limit, s) {
      SeriesOfLonger(before, row, f, param, limit, s);
    }
    if IsSeries(before, f, param, limit, s) {
      SeriesOfShorter(before, row, f, param, limit, s);
    }
  }

  /** One direction of `NonMatchingAppendKeepsSeries`, for equal result sets. */
  lemma SeriesOfLonger(before: seq<Row>, row: Row, f: Filter, param: string, limit: int, s: Series)
    requires Positions(before + [row], f) == Positions(before, f)
    requires IsSeries(before + [row], f, param, limit, s)
    ensures IsSeries(before, f, param, limit, s)
  {
    var after := before + [row];
    var p := Positions(before, f);
    forall i | 0 <= i < |s.x|
      ensures p[i] < |before| && "ts" in before[p[i]] && param in before[p[i]]
      ensures s.x[i] == before[p[i]]["ts"] && s.y[i] == before[p[i]][param]
    {
      assert after[p[i]] == before[p[i]];
    }
  }

  /** The other direction of `NonMatchingAppendKeepsSeries`. */
  lemma SeriesOfShorter(before: seq<Row>, row: Row, f: Filter, param: string, limit: int, s: Series)
    requires Positions(before + [row], f) == Positions(before, f)
    requires IsSeries(before, f, param, limit, s)
    ensures IsSeries(before + [row], f, param, limit, s)
  {
    var after := before + [row];
    var p := Positions(before, f);
    forall i | 0 <= i < |s.x|
      ensures p[i] < |after| && "ts" in after[p[i]] && param in after[p[i]]
      ensures s.x[i] == after[p[i]]["ts"] && s.y[i] == after[p[i]][param]
    {
      assert after[p[i]] == before[p[i]];
    }
  }
}

=== FILE: results.dfy ===
/** Optional values and error-carrying results, used where the Python code returns
  * `None`/a row or raises an exception. */
module Results {

  datatype Option<+T> = None | Some(value: T)

  datatype Result<+T, +E> = Ok(value: T) | Err(error: E)
}

=== FILE: sql.dfy ===
/** The slice of SQLite semantics the measurement queries depend on.
  *
  * A table is the sequence of its rows in insertion order; the row at index i
  * has RowId i + 1, since rows are only ever appended. `ORDER BY RowId DESC`
  * lists the rows newest first, an optional `WHERE meas_type = ...` keeps some
  * of them, and `LIMIT n OFFSET k` cuts a window out of what is left. */
module Sql {
  import opened Results

  /** One cell. Floating-point readings are held as `real`; nothing here computes with them. */
  datatype Value = Null | Int(i: int) | Real(r: real) | Text(s: string)

  /** A row as the mapping from column name to cell that `dict(zip(row.keys(), row))` builds. */
  type Row = map<string, Value>

  datatype SqlError =
    | NoSuchTable(table: string)
    | NoSuchColumn(column: string)
    | ValueCount(values: nat, columns: nat)

  /** The WHERE clause of a query on the measurement type. */
  datatype Filter =
    | Every                   // no WHERE clause
    | TypeIs(n: int)          // WHERE meas_type = n
    | TypeSpelled(s: string)  // WHERE meas_type = 's', compared under INTEGER affinity

  const MeasTypeColumn: string := "meas_type"

  function DigitChar(d: nat): (c: char)
    requires d < 10
    ensures '0' <= c <= '9'
  {
    (48 + d) as char
  }

  /** The decimal spelling of a natural number, most significant digit first. */
  function Digits(n: nat): (s: string)
    ensures 1 <= |s|
    ensures |s| == 1 <==> n < 10
    ensures forall j :: 0 <= j < |s| ==> '0' <= s[j] <= '9'
  {
    if n < 10 then [DigitChar(n)] else Digits(n / 10) + [DigitChar(n % 10)]
  }

  /** The number a string of decimal digits denotes, read most significant digit first. */
  function NumeralValue(s: string): int
  {
    if s == [] then 0 else 10 * NumeralValue(s[..|s| - 1]) + ((s[|s| - 1] as int) - 48)
  }

  /** The digits of `n` denote `n`, with no leading zero unless `n` is 0. */
  lemma {:induction false} DigitsDenote(n: nat)
    ensures NumeralValue(Digits(n)) == n
    ensures n > 0 ==> Digits(n)[0] != '0'
  {
    var s := Digits(n);
    if n >= 10 {
      assert s[..|s| - 1] == Digits(n / 10);
      DigitsDenote(n / 10);
    }
  }

  /** Python's `str(n)` for an integer: a `-` exactly for negative numbers,
    * then the decimal digits of `|n|` with no leading zero, and nothing else. */
  function DecimalText(n: int): (s: string)
    ensures 1 <= |s|
    ensures s[0] == '-' <==> n < 0
    ensures n < 0 ==> 2 <= |s|
    ensures forall j :: (if n < 0 then 1 else 0) <= j < |s| ==> '0' <= s[j] <= '9'
    ensures n >= 0 ==> NumeralValue(s) == n
    ensures n < 0 ==> NumeralValue(s[1..]) == -n
    ensures n != 0 ==> s[if n < 0 then 1 else 0] != '0'
    ensures n == 0 ==> s == "0"
  {
    if n < 0 then
      DigitsDenote(-n);
      assert ("-" + Digits(-n))[1..] == Digits(-n);
      "-" + Digits(-n)
    else
      DigitsDenote(n);
      Digits(n)
  }

  lemma {:induction false} DigitsInjective(a: nat, b: nat)
    requires Digits(a) == Digits(b)
    ensures a == b
  {
    if a < 10 || b < 10 {
      assert a < 10 && b < 10;
      assert DigitChar(a) == Digits(a)[0] == Digits(b)[0] == DigitChar(b);
    } else {
      var sa, sb := Digits(a), Digits(b);
      assert sa[..|sa| - 1] == Digits(a / 10);
      assert sb[..|sb| - 1] == Digits(b / 10);
      DigitsInjective(a / 10, b / 10);
      assert DigitChar(a % 10) == sa[|sa| - 1] == sb[|sb| - 1] == DigitChar(b % 10);
    }
  }

  /** Different integers have different decimal spellings. */
  lemma DecimalTextInjective(a: int, b: int)
    requires DecimalText(a) == DecimalText(b)
    ensures a == b
  {
    if a < 0 {
      assert DecimalText(a)[1..] == Digits(-a);
      assert DecimalText(b)[1..] == Digits(-b);
      DigitsInjective(-a, -b);
    } else {
      DigitsInjective(a, b);
    }
  }

  /** Whether a row passes the WHERE clause. No WHERE clause keeps every row; a
    * type filter keeps only rows whose `meas_type` is an integer, and the quoted
    * spelling of an integer `n` keeps exactly the rows of type `n`. */
  function Keeps(f: Filter, row: Row): (b: bool)
    ensures f.Every? ==> b
    ensures !f.Every? && b ==> MeasTypeColumn in row && row[MeasTypeColumn].Int?
    ensures f.TypeSpelled? && b ==> DecimalText(row[MeasTypeColumn].i) == f.s
    ensures f.TypeSpelled? ==>
              forall n :: DecimalText(n) == f.s ==> (b <==> MeasTypeColumn in row && row[MeasTypeColumn] == Int(n))
  {
    match f
    case Every => true
    case TypeIs(n) => MeasTypeColumn in row && row[MeasTypeColumn] == Int(n)
    case TypeSpelled(s) =>
      assert forall n ::
               (DecimalText(n) == s && MeasTypeColumn in row && row[MeasTypeColumn].Int?
                && DecimalText(row[MeasTypeColumn].i) == s) ==> row[MeasTypeColumn] == Int(n) by {
        forall n | DecimalText(n) == s && MeasTypeColumn in row && row[MeasTypeColumn].Int?
                   && DecimalText(row[MeasTypeColumn].i) == s
          ensures row[MeasTypeColumn] == Int(n)
        {
          DecimalTextInjective(n, row[MeasTypeColumn].i);
        }
      }
      MeasTypeColumn in row && row[MeasTypeColumn].Int? && DecimalText(row[MeasTypeColumn].i) == s
  }

  /** The indices of the rows that pass `f`, newest first: the result set of
    * `SELECT ... WHERE f ORDER BY RowId DESC`, as positions in the table. */
  function Positions(rows: seq<Row>, f: Filter): (p: seq<nat>)
    ensures |p| <= |rows|
    ensures forall j :: 0 <= j < |p| ==> p[j] < |rows| && Keeps(f, rows[p[j]])
    ensures forall j, k :: 0 <= j < k < |p| ==> p[j] > p[k]
    ensures forall i :: 0 <= i < |rows| && Keeps(f, rows[i]) ==> i in p
  {
    if rows == [] then []
    else
      var last := |rows| - 1;
      (if Keeps(f, rows[last]) then [last] else []) + Positions(rows[..last], f)
  }

  /** SQLite reads a negative OFFSET as zero. */
  function Skipped(offset: int): nat
  {
    if offset < 0 then 0 else offset
  }

  /** How many of `n` result rows `LIMIT limit OFFSET offset` lets through;
    * a negative LIMIT means no upper bound. */
  function WindowLength(n: nat, offset: int, limit: int): (m: nat)
    ensures m <= n
    ensures limit >= 0 ==> m <= limit
    ensures Skipped(offset) + m <= n || m == 0
  {
    if Skipped(offset) >= n then 0
    else if limit < 0 || Skipped(offset) + limit >= n then n - Skipped(offset)
    else limit
  }

  /** `LIMIT limit OFFSET offset` applied to a result list. */
  function Window<T>(s: seq<T>, offset: int, limit: int): (w: seq<T>)
    ensures |w| == WindowLength(|s|, offset, limit)
    ensures forall j :: 0 <= j < |w| ==> Skipped(offset) + j < |s| && w[j] == s[Skipped(offset) + j]
  {
    var start := if Skipped(offset) >= |s| then |s| else Skipped(offset);
    var rest := s[start..];
    if limit < 0 || limit >= |rest| then rest else rest[..limit]
  }

  /** The row `fetchone()` returns for `... ORDER BY RowId DESC LIMIT 2 OFFSET offset`:
    * the matching row `offset` places back from the newest, if there is one. */
  function Lookup(rows: seq<Row>, f: Filter, offset: int): (r: Option<Row>)
    ensures r.Some? <==> Skipped(offset) < |Positions(rows, f)|
    ensures r.Some? ==> r.value == rows[Positions(rows, f)[Skipped(offset)]]
  {
    var w := Window(Positions(rows, f), offset, 2);
    if w == [] then None else Some(rows[w[0]])
  }

  /** Appending a row puts it in front of the newest-first list when it passes the filter. */
  lemma PositionsAppend(rows: seq<Row>, row: Row, f: Filter)
    ensures Positions(rows + [row], f) == (if Keeps(f, row) then [|rows|] else []) + Positions(rows, f)
  {
    assert (rows + [row])[..|rows|] == rows;
  }

  /** Without a WHERE clause the newest-first list is the whole table reversed. */
  lemma {:induction false} EveryPositions(rows: seq<Row>)
    ensures |Positions(rows, Every)| == |rows|
    ensures forall j :: 0 <= j < |rows| ==> Positions(rows, Every)[j] == |rows| - 1 - j
  {
    if rows != [] {
      EveryPositions(rows[..|rows| - 1]);
    }
  }

  /** Two filters that agree on every row of the table select the same rows. */
  lemma {:induction false} PositionsSameFilter(rows: seq<Row>, f: Filter, g: Filter)
    requires forall i :: 0 <= i < |rows| ==> Keeps(f, rows[i]) == Keeps(g, rows[i])
    ensures Positions(rows, f) == Positions(rows, g)
  {
    if rows != [] {
      PositionsSameFilter(rows[..|rows| - 1], f, g);
    }
  }

  /** The quoted comparison `meas_type = '<n>'` keeps exactly the rows `meas_type = n` keeps. */
  lemma SpelledFilterIsTypeFilter(rows: seq<Row>, n: int)
    ensures Positions(rows, TypeSpelled(DecimalText(n))) == Positions(rows, TypeIs(n))
  {
    forall i | 0 <= i < |rows|
      ensures Keeps(TypeSpelled(DecimalText(n)), rows[i]) == Keeps(TypeIs(n), rows[i])
    {
    }
    PositionsSameFilter(rows, TypeSpelled(DecimalText(n)), TypeIs(n));
  }

  /** A row that passes the filter becomes the newest match, offset 0. */
  lemma LookupAfterAppendNewest(rows: seq<Row>, row: Row, f: Filter, offset: int)
    requires Keeps(f, row) && offset <= 0
    ensures Lookup(rows + [row], f, offset) == Some(row)
  {
    PositionsAppend(rows, row, f);
    assert Positions(rows + [row], f)[0] == |rows|;
  }

  /** A row that passes the filter pushes every earlier match one offset back. */
  lemma LookupAfterAppendShifts(rows: seq<Row>, row: Row, f: Filter, offset: int)
    requires Keeps(f, row) && offset >= 1
    ensures Lookup(rows + [row], f, offset) == Lookup(rows, f, offset - 1)
  {
    var p := Positions(rows, f);
    PositionsAppend(rows, row, f);
    assert Positions(rows + [row], f) == [|rows|] + p;
    if offset - 1 < |p| {
      assert (rows + [row])[p[offset - 1]] == rows[p[offset - 1]];
    }
  }

  /** A row that fails the filter changes no lookup. */
  lemma LookupAfterAppendOther(rows: seq<Row>, row: Row, f: Filter, offset: int)
    requires !Keeps(f, row)
    ensures Lookup(rows + [row], f, offset) == Lookup(rows, f, offset)
  {
    var p, k := Positions(rows, f), Skipped(offset);
    PositionsAppend(rows, row, f);
    assert Positions(rows + [row], f) == p;
    if k < |p| {
      var i := p[k];
      assert (rows + [row])[i] == rows[i];
      assert Lookup(rows + [row], f, offset) == Some(rows[i]);
    } else {
      assert Lookup(rows + [row], f, offset) == None;
    }
  }

  /** Without a WHERE clause, offset k is the (k+1)-th last row of the table. */
  lemma LookupEvery(rows: seq<Row>, offset: int)
    ensures Skipped(offset) < |rows| ==> Lookup(rows, Every, offset) == Some(rows[|rows| - 1 - Skipped(offset)])
    ensures Skipped(offset) >= |rows| ==> Lookup(rows, Every, offset) == None
  {
    EveryPositions(rows);
  }
}

=== FILE: tools.dfy ===
/** The dashboard's name resolvers (pages/weather_station/tools.py): a period
  * name becomes a number of minutes, a parameter name such as `temperature_out`
  * becomes a column and a measurement type, and `generate_scatter` feeds both
  * into the weather series query. */
module Tools {
  import opened Results
  import opened Sql
  import opened Db
  import Q = Queries
  import WeatherStation

  datatype ToolError =
    | WrongPeriod(period: string)  // `raise Exception('Wrong period', period)`
    | Query(e: SqlError)           // the series query failed
    | NoUnit(param: string)        // `units[fparam]` raised KeyError

  /** Chart units per column. */
  const Units: map<string, string> :=
    map["temperature" := "\U{B0}C", "humidity" := "%", "pressure" := "mm Hg", "dew_point" := "\U{B0}C"]

  /** `convert_period`: minutes in an hour, day, week, 30-day month or 365-day year. */
  function ConvertPeriod(period: string): (r: Result<int, ToolError>)
    ensures period == "hour" ==> r == Ok(60)
    ensures period == "day" ==> r == Ok(1440)
    ensures period == "week" ==> r == Ok(10080)
    ensures period == "month" ==> r == Ok(43200)
    ensures period == "year" ==> r == Ok(525600)
    ensures r.Err? <==> period !in {"hour", "day", "week", "month", "year"}
    ensures r.Err? ==> r.error == WrongPeriod(period)
  {
    if period == "hour" then Ok(60)
    else if period == "day" then Ok(60 * 24)
    else if period == "week" then Ok(60 * 24 * 7)
    else if period == "month" then Ok(60 * 24 * 30)
    else if period == "year" then Ok(60 * 24 * 365)
    else Err(WrongPeriod(period))
  }

  /** Every period is a whole, positive number of hours, so it divides exactly
    * into 5-minute readings and the row count `int(period / 5)` loses nothing. */
  lemma PeriodIsWholeReadings(period: string)
    requires ConvertPeriod(period).Ok?
    ensures var minutes := ConvertPeriod(period).value;
            && minutes > 0 && minutes % 60 == 0
            && minutes % Q.DataUpdatePeriod == 0
            && Q.RowCount(minutes) * Q.DataUpdatePeriod == minutes
            && Q.RowCount(minutes) >= 12
  {
  }

  // ---- parameter names ----

  /** `t` occurs in `s` at index `i`. */
  predicate OccursAt(s: string, t: string, i: int)
  {
    0 <= i && i + |t| <= |s| && s[i..i + |t|] == t
  }

  /** Python's `t in s` for strings: a substring test. */
  function Contains(s: string, t: string): (b: bool)
    ensures b <==> exists i :: OccursAt(s, t, i)
  {
    if |t| > |s| then false
    else if s[..|t|] == t then
      assert OccursAt(s, t, 0);
      true
    else
      var rest := Contains(s[1..], t);
      if rest then
        var i :| OccursAt(s[1..], t, i);
        assert s[1..][i..i + |t|] == s[i + 1..i + 1 + |t|];
        assert OccursAt(s, t, i + 1);
        rest
      else
        assert forall i :: OccursAt(s, t, i) ==> i == 0 || OccursAt(s[1..], t, i - 1) by {
          forall i | OccursAt(s, t, i) && i != 0 ensures OccursAt(s[1..], t, i - 1) {
            assert s[1..][i - 1..i - 1 + |t|] == s[i..i + |t|];
          }
        }
        rest
  }

  /** Python's `s[:-n]`: all but the last `n` characters. It is empty when `s`
    * has fewer than `n` characters, and also for `n == 0`, since `-0` is `0`. */
  function DropLast(s: string, n: nat): (r: string)
    ensures 0 < n <= |s| ==> |r| == |s| - n
    ensures n == 0 || |s| < n ==> r == ""
    ensures |r| <= |s| && r == s[..|r|]
  {
    if 0 < n <= |s| then s[..|s| - n] else []
  }

  predicate EndsWith(s: string, suffix: string)
  {
    |suffix| <= |s| && s[|s| - |suffix|..] == suffix
  }

  /** `convert_param`: a name containing `_in` anywhere is type 0 and loses its
    * last 3 characters; otherwise a name containing `_out` is type 1 and loses
    * its last 4; any other name is type 0 and kept whole. */
  function ConvertParam(param: string): (r: (string, int))
    ensures r.1 == 1 <==> !Contains(param, "_in") && Contains(param, "_out")
    ensures r.1 == 0 || r.1 == 1
    ensures |r.0| <= |param| && r.0 == param[..|r.0|]
    ensures Contains(param, "_in") ==> |r.0| == |param| - 3
    ensures !Contains(param, "_in") && Contains(param, "_out") ==> |r.0| == |param| - 4
    ensures !Contains(param, "_in") && !Contains(param, "_out") ==> r.0 == param
  {
    if Contains(param, "_in") then (DropLast(param, 3), 0)
    else if Contains(param, "_out") then (DropLast(param, 4), 1)
    else (param, 0)
  }

  /** A suffix is also a substring. */
  lemma SuffixIsContained(s: string, suffix: string)
    requires EndsWith(s, suffix)
    ensures Contains(s, suffix)
  {
    assert OccursAt(s, suffix, |s| - |suffix|);
  }

  /** A name ending in `_in` is the column name followed by `_in`, type 0. */
  lemma InSuffixRoundTrip(param: string)
    requires EndsWith(param, "_in")
    ensures ConvertParam(param).0 + "_in" == param
    ensures ConvertParam(param).1 == 0
  {
    SuffixIsContained(param, "_in");
  }

  /** A name ending in `_out`, with no `_in` anywhere, is the column name followed
    * by `_out`, type 1. */
  lemma OutSuffixRoundTrip(param: string)
    requires EndsWith(param, "_out") && !Contains(param, "_in")
    ensures ConvertParam(param).0 + "_out" == param
    ensures ConvertParam(param).1 == 1
  {
    SuffixIsContained(param, "_out");
  }

  /** The test is for a substring, not a suffix: `_in` inside a name that ends
    * in `_out` still wins, and the last 3 characters are cut. */
  lemma InsideInBeatsOutSuffix()
    ensures ConvertParam("heating_index_out") == ("heating_index_", 0)
  {
    var name := "heating_index_out";
    assert name[7..10] == "_in";
    assert OccursAt(name, "_in", 7);
    assert name[..|name| - 3] == "heating_index_";
  }

  // ---- composition ----

  /** The data `generate_scatter(param, period)` hands to the chart: `param`
    * resolved to a column and type, `period` to minutes, and the weather
    * series of at most `minutes / 5` rows of that type, newest first; the
    * column must also have a unit for the axis title. */
  method GenerateScatter(db: Database, param: string, period: string) returns (r: Result<Q.Series, ToolError>)
    requires db.Valid()
    ensures ConvertPeriod(period).Err? ==> r == Err(WrongPeriod(period))
    ensures ConvertPeriod(period).Ok? ==>
              (r.Ok? <==> WeatherStation.Table in db.schema
                          && "ts" in db.schema[WeatherStation.Table]
                          && ConvertParam(param).0 in db.schema[WeatherStation.Table]
                          && MeasTypeColumn in db.schema[WeatherStation.Table]
                          && ConvertParam(param).0 in Units)
    ensures r.Ok? ==>
              && ConvertPeriod(period).Ok?
              && Q.IsSeries(db.tables[WeatherStation.Table], TypeIs(ConvertParam(param).1), ConvertParam(param).0,
                            ConvertPeriod(period).value / Q.DataUpdatePeriod, r.value)
              && |r.value.x| == |r.value.y| <= ConvertPeriod(period).value / Q.DataUpdatePeriod
  {
    var (fparam, measType) := ConvertParam(param);
    var minutes := ConvertPeriod(period);
    if minutes.Err? {
      return Err(minutes.error);
    }
    PeriodIsWholeReadings(period);
    var series := WeatherStation.GetLastSeriesMeasurement(db, fparam, minutes.value, measType);
    if series.Err? {
      return Err(Query(series.error));
    }
    if fparam !in Units {
      return Err(NoUnit(fparam));
    }
    r := Ok(series.value);
  }
}

=== FILE: weather_station.dfy ===
/** The weather-only store (db/weather_station.py): the same operations as the
  * generic store, fixed to `weather_data`, where the `meas_type` filter is
  * always applied, even for type 0. */
module WeatherStation {
  import opened Results
  import opened Sql
  import opened Db
  import Q = Queries

  const Table: string := Q.WeatherTable

  /** `store_weather_data`: one row appended to `weather_data`; returns its RowId. */
  method StoreWeatherData(db: Database, data: seq<Value>) returns (r: Result<nat, SqlError>)
    requires db.Valid()
    modifies db
    ensures db.Valid()
    ensures r.Ok? <==> (Table in db.schema && ColumnSet(Q.WeatherColumns) <= ColumnSet(db.schema[Table])
                        && |data| == |Q.WeatherColumns|)
    ensures r.Ok? ==> db.tables == old(db.tables)[Table := old(db.tables[Table]) + [NewRow(db.schema[Table], Q.WeatherColumns, data)]]
    ensures r.Ok? ==> r.value == |db.tables[Table]|
    ensures r.Err? ==> db.tables == old(db.tables)
  {
    r := Q.StoreWeatherData(db, data);
  }

  /** The row `store_weather_data` appends has the type given as its second value. */
  lemma StoredRowHasGivenType(columns: seq<string>, data: seq<Value>)
    requires |data| == |Q.WeatherColumns|
    requires ColumnSet(Q.WeatherColumns) <= ColumnSet(columns)
    ensures MeasTypeColumn in NewRow(columns, Q.WeatherColumns, data)
    ensures NewRow(columns, Q.WeatherColumns, data)[MeasTypeColumn] == data[1]
    ensures forall t :: Keeps(TypeIs(t), NewRow(columns, Q.WeatherColumns, data)) <==> data[1] == Int(t)
  {
    assert Q.WeatherColumns[1] == MeasTypeColumn;
    assert Q.WeatherColumns[0] != MeasTypeColumn;
    assert IndexOf(Q.WeatherColumns, MeasTypeColumn) == 1;
    assert MeasTypeColumn in ColumnSet(Q.WeatherColumns);
  }

  /** `get_one_measurement(param, offset, meas_type)`: the `param` cell of the
    * type-`measType` row `offset` places back from the newest, or `0`. Rows of
    * other types never take part. */
  function GetOneMeasurement(db: Database, param: string, offset: int, measType: int): (r: Result<Value, SqlError>)
    reads db
    requires db.Valid()
    ensures Table !in db.schema ==> r == Err(NoSuchTable(Table))
    ensures Table in db.schema ==> (r.Ok? <==> param in db.schema[Table] && MeasTypeColumn in db.schema[Table])
    ensures r.Ok? && Lookup(db.tables[Table], TypeIs(measType), offset).Some? ==>
              param in Lookup(db.tables[Table], TypeIs(measType), offset).value
              && r.value == Lookup(db.tables[Table], TypeIs(measType), offset).value[param]
    ensures r.Ok? && Lookup(db.tables[Table], TypeIs(measType), offset).None? ==> r.value == Int(0)
  {
    SpelledFilterIsTypeFilter(if Table in db.tables then db.tables[Table] else [], measType);
    Q.PointQuery(db, Table, param, offset, TypeSpelled(DecimalText(measType)))
  }

  /** `get_last_measurement_pack(offset, meas_type)`: the whole type-`measType`
    * row `offset` places back from the newest, or `0`. */
  function GetLastMeasurementPack(db: Database, offset: int, measType: int): (r: Result<Q.Pack, SqlError>)
    reads db
    requires db.Valid()
    ensures Table !in db.schema ==> r == Err(NoSuchTable(Table))
    ensures Table in db.schema ==> (r.Ok? <==> MeasTypeColumn in db.schema[Table])
    ensures r.Ok? ==> (r.value.NoRow? <==> Lookup(db.tables[Table], TypeIs(measType), offset).None?)
    ensures r.Ok? && r.value.Whole? ==> Some(r.value.row) == Lookup(db.tables[Table], TypeIs(measType), offset)
  {
    SpelledFilterIsTypeFilter(if Table in db.tables then db.tables[Table] else [], measType);
    Q.RowQuery(db, Table, offset, TypeSpelled(DecimalText(measType)))
  }

  /** `get_last_series_measurement(param, period, meas_type)`: the `ts` and
    * `param` cells of at most `int(period / 5)` type-`measType` rows, newest first. */
  method GetLastSeriesMeasurement(db: Database, param: string, period: int, measType: int) returns (r: Result<Q.Series, SqlError>)
    requires db.Valid()
    ensures Table !in db.schema ==> r == Err(NoSuchTable(Table))
    ensures Table in db.schema ==>
              (r.Ok? <==> "ts" in db.schema[Table] && param in db.schema[Table] && MeasTypeColumn in db.schema[Table])
    ensures r.Ok? ==> Q.IsSeries(db.tables[Table], TypeIs(measType), param, Q.RowCount(period), r.value)
    ensures r.Ok? && period >= 0 ==> |r.value.x| == |r.value.y| <= Q.RowCount(period)
  {
    r := Q.FetchSeries(db, Table, param, Q.RowCount(period), TypeIs(measType));
  }

  /** After a row of type `t` is appended, offset 0 of type `t` reads that row,
    * and offset 1 reads the row that was the newest of type `t` before. */
  lemma NewestAfterAppend(db: Database, before: seq<Row>, row: Row, param: string, t: int)
    requires db.Valid()
    requires Table in db.schema && param in db.schema[Table] && MeasTypeColumn in db.schema[Table]
    requires db.tables[Table] == before + [row]
    requires Keeps(TypeIs(t), row)
    ensures param in row && GetOneMeasurement(db, param, 0, t) == Ok(row[param])
    ensures Lookup(before, TypeIs(t), 0).None? ==> GetOneMeasurement(db, param, 1, t) == Ok(Int(0))
    ensures Lookup(before, TypeIs(t), 0).Some? ==>
              param in Lookup(before, TypeIs(t), 0).value
              && GetOneMeasurement(db, param, 1, t) == Ok(Lookup(before, TypeIs(t), 0).value[param])
  {
    LookupAfterAppendNewest(before, row, TypeIs(t), 0);
    LookupAfterAppendShifts(before, row, TypeIs(t), 1);
  }

  /** Appending a row of any other type changes no type-`t` lookup. */
  lemma OtherTypeAppendInvisible(db: Database, before: seq<Row>, row: Row, param: string, offset: int, t: int)
    requires db.Valid()
    requires Table in db.schema && param in db.schema[Table] && MeasTypeColumn in db.schema[Table]
    requires db.tables[Table] == before + [row]
    requires !Keeps(TypeIs(t), row)
    ensures GetLastMeasurementPack(db, offset, t).Ok?
    ensures GetLastMeasurementPack(db, offset, t).value.NoRow? <==> Lookup(before, TypeIs(t), offset).None?
    ensures GetLastMeasurementPack(db, offset, t).value.Whole? ==>
              Some(GetLastMeasurementPack(db, offset, t).value.row) == Lookup(before, TypeIs(t), offset)
    ensures Lookup(before, TypeIs(t), offset).None? ==> GetOneMeasurement(db, param, offset, t) == Ok(Int(0))
    ensures Lookup(before, TypeIs(t), offset).Some? ==>
              param in Lookup(before, TypeIs(t), offset).value
              && GetOneMeasurement(db, param, offset, t) == Ok(Lookup(before, TypeIs(t), offset).value[param])
  {
    LookupAfterAppendOther(before, row, TypeIs(t), offset);
  }

  /** Appending a row of any other type leaves the type-`t` series unchanged:
    * a list is the type-`t` series of the longer table exactly when it is the
    * type-`t` series of the shorter one. */
  lemma OtherTypeAppendSeriesInvisible(before: seq<Row>, row: Row, t: int, param: string, limit: int, s: Q.Series)
    requires !Keeps(TypeIs(t), row)
    ensures Q.IsSeries(before + [row], TypeIs(t), param, limit, s) <==> Q.IsSeries(before, TypeIs(t), param, limit, s)
  {
    Q.NonMatchingAppendKeepsSeries(before, row, TypeIs(t), param, limit, s);
  }
}
